=== FILE: README.md ===
# Catalog state rules of the product admin panel

This project models the pure state rules inside a small React admin panel for a product catalog. It covers:

- the `likes` store slice, which holds the liked product ids and has five reducers;
- the likes page, which holds a local catalog, applies create, update and delete mutations, joins the catalog with the liked ids and runs a title search;
- the products page, which derives category facets and applies the title-and-category filter;
- the product modal, a state machine over `view`, `edit` and `create` with a confirm-delete flag, whose submit merges form data into the held product;
- the product form, which flattens a product into five fields;
- the sign-in check of the authentication page.

Everything is written as immutable datatypes and pure functions over sequences, with lemmas for the list and state-machine properties.

Modules, one per source file plus shared helpers:

- `Wrappers`: `Option` and `Result`.
- `Seqs`: the JavaScript array operations the pages use. These are `indexOf`, `filter`, `find` and the insertion-ordered `Set` read back with `Array.from`. `find` returns the matching element or `undefined`, and `Seqs.FindIndex` models it by the position where the search stops, or -1 when it finds nothing. It also has the order-preserving subsequence relation.
- `Text`: `toLowerCase` (ASCII letters only), `trim` (the ECMAScript white-space and line-terminator code points), `includes`, and `String(n)` for an integer `n` with its parser.
- `Catalog`: the shared `Product` record and its `Category`, which is either a string or an object with an optional `name`. The `types` file that declares this record is not part of this model. The record's shape is read off the modal's blank product and the pages' field accesses.
- `Loader`: the mount-time fetch lifecycle that both catalog pages share. The fetch outcome is an input: `Loaded(list)` or `Rejected(message)`.
- `LikesSlice`, `ProductForm`, `ProductModal`, `LikesPage`, `ProductsPage`, `AuthPage`: one module per source file.

Modelling choices:

- The modal reports what it asks of its host as effects, in call order: `Save(product)` for `onSave`, `Delete(id)` for `onDelete` and `Close` for `onClose`. `LikesPage.Act` carries them out with `handleSave`, `handleDelete` and `closeModal`.
- The page's `modalInfo.mode` and the modal's own `mode` are kept apart. `handleSave` reads the first and the modal's submit reads the second. They agree on whether the mode is `create` whenever the modal was opened on a closed page (`LikesPage.ModesAgreeInvariant`). They can differ otherwise: after Edit in a modal opened in `view`, the page mode is still `view` while the modal's is `edit`.
- Opening while a modal is already open replaces only its props. React keeps the mounted modal and its own state. No guard against this exists in the code, and the model adds none.
- A control is active only in the modes that render it. The Edit, Delete and Close buttons exist in `view`, the form in `edit` and `create`, and the confirm dialog while its flag is set. An action on a control that is not rendered does nothing.
- `LikesPage.Open` is more general than the page's one call site, `openModal(product, 'view')` in the card's menu button (src/pages/LikesPage.tsx:190). That call always opens in `view` with a product, so no control on this page opens the modal in `create` or `edit` mode or without a product. The create branch of `handleSave` is nevertheless modelled because the handler contains it. `LikesPage.CreateScenario` drives that branch through `Open`, which no control on this page triggers.
- `Date.now()` in the modal's submit is the `now` parameter of `FormSubmitted`. Nothing promises that it is fresh.
- A price is an opaque `real`.
- The liked-id list is a list, as in the code, not a set. `setLikes` installs any list, duplicates included. An id held exactly twice (e.g. `[5, 5]`) is removed entirely by two toggles, so toggling twice does not restore its membership (`LikesSlice.ToggleTwiceWithDuplicate`). From the initial empty list, toggle, add, remove and clear never create a duplicate (`LikesSlice.ReachableNoDup`). The initial state `LikesSlice.InitialState` is the empty list.

Behaviour the code does not have:

- A created product gets the clock reading as its id. The code does not check it against the ids already in the catalog. `LikesPage.SaveKeepsUniqueIds` therefore assumes the id is new.
- The filtered list has no display cap.
- Nothing guards against opening a second modal.
- Cancelling the confirm dialog only clears its flag. It does not change the mode.

## Model

| member | source | states |
|---|---|---|
| Seqs.IndexOf | src/store/likesSlice.ts:17 | the first position of the id, or -1 exactly when the id is absent |
| Seqs.Filter | src/pages/LikesPage.tsx:57 | the result is an order-preserving subsequence of the input; each of its elements satisfies the test, and every input element that satisfies the test is in it |
| Seqs.FindIndex | src/pages/AuthPage.tsx:51 | the first position passing the test, or -1 exactly when none passes |
| Seqs.Distinct | src/pages/ProductsPage.tsx:53-55 | no duplicates; the same elements as the input; ordered by first occurrence in the input |
| Text.Lower | src/pages/LikesPage.tsx:63 | same length, no upper-case ASCII letter left, and each character either kept or an upper-case letter shifted to lower case |
| Text.Trim | src/pages/AuthPage.tsx:34 | the result is a contiguous block of the input, everything cut off around it is white space, and it neither starts nor ends with white space |
| Text.BlankIffAllSpace | src/pages/AuthPage.tsx:34-37 | `!s.trim()` holds exactly when every character of the field is white space, which is how the sign-in check's blank test is stated |
| Text.ContainsIffOccurs | src/pages/ProductsPage.tsx:61-63 | `includes` holds exactly when the search occurs at some position of the title |
| Text.IntToString | src/pages/AuthPage.tsx:63 | `String(id)`: a non-empty string that starts with `-` exactly for a negative id; `Text.IntToStringRoundTrip` parses it back |
| Text.IntToStringRoundTrip | src/pages/AuthPage.tsx:63 | the decimal string of an id parses back to that id, so distinct ids give distinct tokens |
| Text.LowerTrimIgnoresLeadingSpace | src/pages/AuthPage.tsx:53 | a leading white-space character does not survive trimming, with or without lower-casing |
| Catalog.CategoryName | src/components/ProductModal.tsx:65-68 | a string category is itself; an object category is its name, or `''` without one |
| LikesSlice.Toggle | src/store/likesSlice.ts:15-23 | an absent id is appended at the end; a present id loses its first occurrence only, with everything before and after it kept in place |
| LikesSlice.ToggleMembership | src/store/likesSlice.ts:15-23 | toggling changes the membership of no other id; the id is present afterwards iff it was absent or duplicated |
| LikesSlice.ToggleRemovesAll | src/store/likesSlice.ts:17-19 | in a duplicate-free list, removing the first occurrence leaves none |
| LikesSlice.ToggleTwice | src/store/likesSlice.ts:15-23 | in a duplicate-free list, toggling twice restores every id's membership, and restores the list itself when the id was absent |
| LikesSlice.ToggleTwiceWithDuplicate | src/store/likesSlice.ts:15-23 | an id held exactly twice, as in `[5, 5]`, is removed entirely by two toggles |
| LikesSlice.ToggleKeepsNoDup | src/store/likesSlice.ts:15-23 | toggling keeps a duplicate-free list duplicate-free |
| LikesSlice.Add | src/store/likesSlice.ts:24-29 | the id is present afterwards; a present id leaves the list unchanged, an absent one is appended |
| LikesSlice.AddIdempotent | src/store/likesSlice.ts:24-29 | adding the same id twice is adding it once |
| LikesSlice.AddKeepsNoDup | src/store/likesSlice.ts:24-29 | adding keeps a duplicate-free list duplicate-free |
| LikesSlice.Remove | src/store/likesSlice.ts:30-35 | no occurrence of the id remains, the other ids stay in order, and an absent id leaves the list unchanged |
| LikesSlice.RemoveMembership | src/store/likesSlice.ts:30-35 | every other id keeps its number of occurrences |
| LikesSlice.RemoveKeepsNoDup | src/store/likesSlice.ts:30-35 | removing keeps a duplicate-free list duplicate-free |
| LikesSlice.Reduce | src/store/likesSlice.ts:11-43 | `toggleLike`, `addLike` and `removeLike` apply `Toggle`, `Add` and `Remove`; `setLikes` installs its payload; `clearLikes` empties the list; every action but `setLikes` keeps a duplicate-free list duplicate-free |
| LikesSlice.ReachableNoDup | src/store/likesSlice.ts:7-41 | from the empty initial list, any run of toggle, add, remove and clear actions leaves no duplicate |
| Loader.FromResponse | src/pages/LikesPage.tsx:31-37 | a non-ok status becomes a rejection with `Failed to load products`; an ok one delivers the list |
| Loader.Start | src/pages/LikesPage.tsx:26-29 | after mounting, the list is empty, loading is on and there is no error |
| Loader.Settle | src/pages/LikesPage.tsx:38-49 | a success replaces the whole list; a failure keeps the old list and records the message (`Unknown error` for a non-`Error`); loading drops; after unmount nothing changes |
| Loader.Unmount | src/pages/LikesPage.tsx:51-53 | unmounting clears the mounted flag and nothing else |
| Loader.UnmountedIgnoresAll | src/pages/LikesPage.tsx:38-53 | once unmounted, no series of late results changes the state |
| LikesPage.Replace | src/pages/LikesPage.tsx:82 | same length; products with the saved id become the saved product, all others are untouched |
| LikesPage.HandleSave | src/pages/LikesPage.tsx:78-84 | in create mode the saved product becomes the head and the old list the tail; otherwise the length and the id sequence are unchanged and only matching products are replaced |
| LikesPage.UpdateWithoutMatch | src/pages/LikesPage.tsx:81-82 | an update whose id matches nothing is a no-op |
| LikesPage.SaveKeepsUniqueIds | src/pages/LikesPage.tsx:78-84 | an update keeps ids unique; a create does so when its id is new |
| LikesPage.HandleDelete | src/pages/LikesPage.tsx:86-88 | no product with the id remains; every other product stays, in order and as often as before |
| LikesPage.DeleteLength | src/pages/LikesPage.tsx:86-88 | with unique ids, the catalog shrinks by exactly one iff the id was present, and is unchanged otherwise |
| LikesPage.LikedProducts | src/pages/LikesPage.tsx:56-58 | an order-preserving subsequence of the catalog holding exactly the products whose id is liked |
| LikesPage.LikedProductsExact | src/pages/LikesPage.tsx:56-58 | liked products keep their catalog multiplicity; a liked id with no product is silently absent |
| LikesPage.FilteredProducts | src/pages/LikesPage.tsx:60-66 | an order-preserving subsequence of the liked products holding exactly those whose lower-cased title includes the lower-cased search, each as often as in the liked list |
| LikesPage.EmptySearchKeepsAll | src/pages/LikesPage.tsx:60-66 | an empty search keeps every liked product |
| LikesPage.ShownComeFromCatalog | src/pages/LikesPage.tsx:56-66 | the searched liked products are an order-preserving subsequence of the catalog |
| LikesPage.Mount | src/pages/LikesPage.tsx:11-29 | the page starts with an empty catalog, a load in flight, the error cleared, an empty search and no modal |
| LikesPage.Settle | src/pages/LikesPage.tsx:38-49 | a failed load keeps the catalog; a successful one on a mounted page replaces it; after unmount nothing changes |
| LikesPage.Open | src/pages/LikesPage.tsx:72-74 | the modal gets the new props; a newly mounted modal starts in the requested mode, an already open one keeps its own state; the catalog and the search stay as they were |
| LikesPage.PageMode | src/pages/LikesPage.tsx:79 | the mode `handleSave` reads exists exactly while a modal is open and is its opening mode |
| LikesPage.Act | src/pages/LikesPage.tsx:205-213 | without a modal an action changes nothing; modal actions never touch the load flags, the error or the search |
| LikesPage.ApplyEffect | src/pages/LikesPage.tsx:76-88 | `onClose` closes the modal and leaves the catalog; `onDelete` leaves no product with the id; `onSave` prepends in create mode and otherwise keeps the length and the ids; none touches the search or the load flags |
| LikesPage.ModesAgreeInvariant | src/pages/LikesPage.tsx:72-84 | opening on a closed page makes the page mode and the modal mode agree on create, and every modal action keeps them agreeing |
| LikesPage.CreateScenario | src/pages/LikesPage.tsx:78-80 | opening in create mode and submitting prepends the submitted product with the supplied id and closes the modal |
| LikesPage.DeleteScenario | src/pages/LikesPage.tsx:86-88 | viewing a product, asking to delete it and confirming removes its id from the catalog and closes the modal |
| ProductsPage.Categories | src/pages/ProductsPage.tsx:52-56 | no duplicates; exactly the products' categories; ordered by first occurrence, not sorted |
| ProductsPage.DistinctCategoriesKept | src/pages/ProductsPage.tsx:52-56 | when no category repeats, the facets are the categories in product order |
| ProductsPage.FacetsIgnoreFilter | src/pages/ProductsPage.tsx:52-56 | the facets do not depend on the search or the chosen category |
| ProductsPage.FilteredProducts | src/pages/ProductsPage.tsx:58-68 | an order-preserving subsequence of the products holding exactly those whose lower-cased title includes the lower-cased search and whose category is `'all'` or equal to the product's |
| ProductsPage.FilteredMultiplicity | src/pages/ProductsPage.tsx:60-66 | a matching product is kept as often as it occurs; a non-matching one never appears |
| ProductsPage.NoFilterShowsAll | src/pages/ProductsPage.tsx:61-65 | an empty search with category `'all'` shows the whole list |
| ProductsPage.Derive | src/pages/ProductsPage.tsx:52-70 | `total` is the number of filtered products and never exceeds the number of products |
| ProductsPage.Settle | src/pages/ProductsPage.tsx:34-45 | a failed load keeps the products; a successful one on a mounted page replaces them; after unmount nothing changes |
| ProductForm.DraftOf | src/components/ProductModal.tsx:121 | the form receives every field of the product |
| ProductForm.Init | src/pages/ProductFormPage.tsx:19-31 | title and description default to `''` and price to 0; a string category is kept, an object category gives its name or `''`; the image is the first image, or `''` with no images |
| ProductForm.ApplyEdit | src/pages/ProductFormPage.tsx:45-91 | each input changes its own field and no other |
| ProductForm.Submit | src/pages/ProductFormPage.tsx:33-36 | the submitted data carries the five current field values unchanged |
| ProductModal.Init | src/components/ProductModal.tsx:23 | a newly mounted modal is in its opening mode with the confirm dialog closed |
| ProductModal.Current | src/components/ProductModal.tsx:24-32 | the held product, or a blank one with id 0 and no images |
| ProductModal.ImagesOf | src/components/ProductModal.tsx:39 | at most one image: the form's image when non-empty, otherwise none |
| ProductModal.Merge | src/components/ProductModal.tsx:35-40 | the id comes from the held product and every other field from the form; the category becomes a plain string, and the images are the form's image alone, or none when it is empty |
| ProductModal.Submitted | src/components/ProductModal.tsx:34-46 | the create mode takes the supplied clock reading as id; the other modes keep the held product's id, or 0 without one; title, price, description, category and images come from the form |
| ProductModal.Step | src/components/ProductModal.tsx:34-136 | no action enters or leaves create mode; an action yields at most two effects; when it closes, closing comes last; every effect-producing action closes |
| ProductModal.CreateModeIsFixed | src/components/ProductModal.tsx:115-126 | over any run of actions, the modal is in create mode exactly when it started there |
| ProductModal.SubmitSavesThenCloses | src/components/ProductModal.tsx:34-48 | a submit calls `onSave` once and then `onClose`; the saved product keeps the held id in edit mode and takes the clock reading in create mode, and takes the form's fields with at most one image |
| ProductModal.CreateIgnoresHeldProduct | src/components/ProductModal.tsx:32-43 | in create mode the saved product does not depend on the held one |
| ProductModal.DeleteRequestNeedsProduct | src/components/ProductModal.tsx:52-56 | Delete opens the confirmation only when a product is held, and without one nothing changes |
| ProductModal.ConfirmDeletes | src/components/ProductModal.tsx:58-63 | confirming deletes the held id and closes iff a product and `onDelete` are both present, and otherwise changes nothing |
| ProductModal.ModeTransitions | src/components/ProductModal.tsx:93-136 | Edit moves view to edit; the view's Close button closes the modal and is inert in the other modes; form cancel closes in create and returns edit to view; confirm cancel only clears the flag |
| ProductModal.EditRoundTrip | src/pages/ProductFormPage.tsx:19-36 | a product with a string category, loaded into the form and submitted unchanged in edit mode, comes back equal except that its images collapse to the first non-empty one or none |
| AuthPage.SameEmail | src/pages/AuthPage.tsx:52-53 | a user without an email never matches; the stored email matches itself, any spelling equal after lower-casing, and itself behind one leading space; between lower-case, trimmed emails, a match is exact equality, so a differing email is rejected |
| AuthPage.PasswordMatches | src/pages/AuthPage.tsx:55 | a missing or empty stored password accepts any input; otherwise only the stored password itself is accepted |
| AuthPage.FindUser | src/pages/AuthPage.tsx:51-57 | the first user whose email and password both match, or -1 exactly when none does |
| AuthPage.Login | src/pages/AuthPage.tsx:34-64 | blank fields are rejected before any lookup; with no accepting user the result is `Email yoki parol noto'g'ri.`; on success the first accepting user signs in with the decimal string of its id as token and its stored email |
| AuthPage.NoPasswordAcceptsAny | src/pages/AuthPage.tsx:55 | when no user stores a password, the result depends on the typed password only through whether it is blank |
| AuthPage.LeadingSpaceInEmailIgnored | src/pages/AuthPage.tsx:52-53 | white space before the typed email does not change the result |
| AuthPage.TokenIsUserId | src/pages/AuthPage.tsx:63 | the session token parses back to the id of the matched user |

## Left out

- Network access is not modelled. This covers every `fetch` call, JSON decoding and status handling. Each load is an abstract `Loaded(list)` or `Rejected(message)`, and sign-in starts from an already fetched user list.
- Registration is not modelled (src/pages/AuthPage.tsx:66-97). It is a POST to the identity provider.
- The sign-in page's own flags and catch block are not modelled (src/pages/AuthPage.tsx:26-33, 99-110). This includes its `loading` and `status` flags and its fetch-failure message.
- src/App.tsx is not modelled. It does session storage in `localStorage` and page switching, which are host I/O and navigation.
- Presentation-only files are not modelled: the home page, the category page, the confirm dialog's markup, the lazy image and the navigation item.
- Price formatting with `toFixed(2)` and the `parseFloat(...) || 0` input parsing are floating-point concerns and are not modelled. A price is an opaque `real`, and a price edit carries the parsed number.
- Text.Lower: lower-cases ASCII letters only, not all of Unicode as `toLowerCase` does.
- Text.IntToString: covers integer ids only. For non-integers, or for magnitudes of 10^21 and above, JavaScript switches to other notations.
- The HTML `required` and `type="url"` checks of the form are not modelled. The browser applies them before submit, so the model admits submits the browser would block. Every stated property also holds for the submits the browser lets through.
- The modal's submit also copies the form's `image` key onto the saved object as an extra property. The model's product record has no such field. The pages show `images[0]` before falling back to that key, and that key is empty whenever `images` is, so what is shown is the same.
- The likes page's rendering is not modelled. This covers the card's category and image display and the empty-state messages. Its `loading` flag is kept in the model's state but is not shown.
- ProductModal.CreateIgnoresHeldProduct: holds for the six fields of the product record only. The modal's `...current` spread copies every property of the held object, and any property outside the record would carry over into a created product.
- The confirm dialog's full-screen overlay (src/components/ConfirmModal.tsx:20) covers the view buttons while it is open. The model still accepts Edit and Close clicks then. This admits more behaviour than the page has, so every property proved about the modal also holds for the real one.
- Each effect run in React has its own `isMounted` flag. The model keeps one flag per page. This matches the single mount-time load the pages perform.

=== FILE: auth_page.dfy ===
/** The sign-in check of the authentication page: blank-field rejection
    and the first-match lookup of the credentials in the fetched user
    list. Fetching that list is not modelled; the list is an input. */
module AuthPage {
  import opened Wrappers
  import opened Seqs
  import opened Text

  /** A user record of the identity provider; email and password may be
      missing. */
  datatype User = User(id: int, email: Option<string>, password: Option<string>)

  /** What a successful sign-in hands to the application. */
  datatype Session = Session(token: string, email: string)

  const BlankFieldsError := "Email va parol to'ldirilishi shart."
  const BadCredentialsError := "Email yoki parol noto'g'ri."

  /** Emails are compared lower-cased and trimmed; a user without an
      email matches nothing. */
  function SameEmail(u: User, email: string): (b: bool)
    ensures b ==> u.email.Some?
    ensures u.email == Some(email) ==> b
    ensures u.email.Some? && Lower(u.email.value) == Lower(email) ==> b
    ensures u.email.Some? && u.email.value == " " + email ==> b
    ensures (u.email.Some? && Lower(u.email.value) == u.email.value == Trim(u.email.value)
             && Lower(email) == email == Trim(email)) ==> (b <==> u.email.value == email)
  {
    LowerTrimIgnoresLeadingSpace(' ', email);
    assert " " + email == [' '] + email;
    u.email.Some? && Trim(Lower(u.email.value)) == Trim(Lower(email))
  }

  /** A stored, non-empty password must equal the given one exactly; a
      missing or empty one accepts anything. */
  function PasswordMatches(u: User, password: string): (b: bool)
    ensures u.password.None? || u.password == Some("") ==> b
    ensures u.password == Some(password) ==> b
    ensures b && u.password.Some? && u.password.value != "" ==> u.password.value == password
  {
    if u.password.Some? && u.password.value != "" then u.password.value == password else true
  }

  predicate Accepts(u: User, email: string, password: string)
  {
    SameEmail(u, email) && PasswordMatches(u, password)
  }

  /** The test `users.find` applies. */
  function AcceptsWith(email: string, password: string): User -> bool
  {
    (u: User) => Accepts(u, email, password)
  }

  /** `users.find`: the position of the first accepting user, or -1. */
  function FindUser(users: seq<User>, email: string, password: string): (i: int)
    ensures -1 <= i < |users|
    ensures i == -1 <==> forall j :: 0 <= j < |users| ==> !Accepts(users[j], email, password)
    ensures 0 <= i ==> Accepts(users[i], email, password)
    ensures 0 <= i ==> forall j :: 0 <= j < i ==> !Accepts(users[j], email, password)
  {
    FindIndex(users, AcceptsWith(email, password))
  }

  /** The sign-in decision. Blank fields are rejected before any lookup;
      otherwise the first accepting user signs in with its id as token and
      its stored email. */
  function Login(users: seq<User>, email: string, password: string): (r: Result<Session, string>)
    ensures IsBlank(email) || IsBlank(password) ==> r == Failure(BlankFieldsError)
    ensures r.Failure? ==> r.error == BlankFieldsError || r.error == BadCredentialsError
    ensures !IsBlank(email) && !IsBlank(password) ==> (r.Success? <==> FindUser(users, email, password) >= 0)
    ensures !IsBlank(email) && !IsBlank(password) && FindUser(users, email, password) == -1 ==>
      r == Failure(BadCredentialsError)
    ensures r.Success? ==> var i := FindUser(users, email, password);
      0 <= i && r.value == Session(IntToString(users[i].id), users[i].email.value)
  {
    if IsBlank(email) || IsBlank(password) then Failure(BlankFieldsError)
    else
      var i := FindUser(users, email, password);
      if i == -1 then Failure(BadCredentialsError)
      else Success(Session(IntToString(users[i].id), users[i].email.value))
  }

  /** When no user has a stored password, the typed password matters only
      through the blank check: any two passwords that are both blank or both
      not blank give the same result. */
  lemma NoPasswordAcceptsAny(users: seq<User>, email: string, p1: string, p2: string)
    requires IsBlank(p1) <==> IsBlank(p2)
    requires forall j :: 0 <= j < |users| ==> users[j].password.None? || users[j].password == Some("")
    ensures Login(users, email, p1) == Login(users, email, p2)
  {
    assert forall j :: 0 <= j < |users| ==> (Accepts(users[j], email, p1) <==> Accepts(users[j], email, p2));
    SameLogin(users, email, p1, email, p2);
  }

  /** Helper: credentials accepted by the same users find the same user. */
  lemma SameFind(users: seq<User>, e1: string, p1: string, e2: string, p2: string)
    requires forall j :: 0 <= j < |users| ==> (Accepts(users[j], e1, p1) <==> Accepts(users[j], e2, p2))
    ensures FindUser(users, e1, p1) == FindUser(users, e2, p2)
  {
  }

  /** Helper: credentials that are blank alike and accepted by the same
      users sign in alike. */
  lemma SameLogin(users: seq<User>, e1: string, p1: string, e2: string, p2: string)
    requires IsBlank(e1) == IsBlank(e2) && IsBlank(p1) == IsBlank(p2)
    requires forall j :: 0 <= j < |users| ==> (Accepts(users[j], e1, p1) <==> Accepts(users[j], e2, p2))
    ensures Login(users, e1, p1) == Login(users, e2, p2)
  {
    SameFind(users, e1, p1, e2, p2);
  }

  /** White space typed before the email changes nothing. */
  lemma LeadingSpaceInEmailIgnored(users: seq<User>, c: char, email: string, password: string)
    requires IsSpace(c)
    ensures Login(users, [c] + email, password) == Login(users, email, password)
  {
    var e := [c] + email;
    LowerTrimIgnoresLeadingSpace(c, email);
    assert IsBlank(e) == IsBlank(email);
    forall j | 0 <= j < |users|
      ensures Accepts(users[j], e, password) <==> Accepts(users[j], email, password)
    {
      assert SameEmail(users[j], e) <==> SameEmail(users[j], email);
    }
    SameLogin(users, e, password, email, password);
  }

  /** The token of a session reads back as the id of the user it names. */
  lemma TokenIsUserId(users: seq<User>, email: string, password: string)
    ensures var r := Login(users, email, password); var i := FindUser(users, email, password);
      r.Success? ==> 0 <= i && ParseInt(r.value.token) == Some(users[i].id)
  {
    var i := FindUser(users, email, password);
    if 0 <= i {
      IntToStringRoundTrip(users[i].id);
    }
  }
}

=== FILE: catalog.dfy ===
/** The shared product record of the admin panel. The record type itself
    lives in a `types` file that is not part of this model; its shape is
    read off the blank product in the modal and the field accesses of the
    pages. */
module Catalog {
  import opened Wrappers

  /** A category as the remote catalog delivers it: a plain string, or an
      object that may carry a `name`. */
  datatype Category = Str(value: string) | Obj(name: Option<string>)

  /** A catalog product. `price` is kept as an opaque number. */
  datatype Product = Product(
    id: int,
    title: string,
    price: real,
    description: string,
    category: Category,
    images: seq<string>)

  /** The display name of a category: the string itself, else the
      object's `name`, else the empty string (`name || ''`). */
  function CategoryName(c: Category): (r: string)
    ensures c.Str? ==> r == c.value
    ensures c.Obj? && c.name.Some? ==> r == c.name.value
    ensures c.Obj? && c.name.None? ==> r == ""
  {
    match c
    case Str(s) => s
    case Obj(n) => n.GetOr("")
  }

  /** The ids of a product list, in list order. */
  function Ids(ps: seq<Product>): (r: seq<int>)
    ensures |r| == |ps|
    ensures forall i :: 0 <= i < |ps| ==> r[i] == ps[i].id
  {
    seq(|ps|, i requires 0 <= i < |ps| => ps[i].id)
  }

  /** No two products of the list share an id. */
  predicate UniqueIds(ps: seq<Product>)
  {
    forall i, j :: 0 <= i < j < |ps| ==> ps[i].id != ps[j].id
  }
}

=== FILE: likes_page.dfy ===
/** The likes page: the locally held catalog, its create, update and
    delete mutations driven by the product modal, the join with the liked
    ids, and the title search over the liked products. */
module LikesPage {
  import opened Wrappers
  import opened Seqs
  import opened Text
  import opened Catalog
  import Loader
  import opened ProductModal

  /** Replaces every product whose id matches `prod`'s with `prod`. */
  function Replace(ps: seq<Product>, prod: Product): (r: seq<Product>)
    ensures |r| == |ps|
    ensures forall i :: 0 <= i < |ps| && ps[i].id == prod.id ==> r[i] == prod
    ensures forall i :: 0 <= i < |ps| && ps[i].id != prod.id ==> r[i] == ps[i]
  {
    seq(|ps|, i requires 0 <= i < |ps| => if ps[i].id == prod.id then prod else ps[i])
  }

  /** `handleSave`: prepends when the open modal was opened to create,
      otherwise replaces by id. */
  function HandleSave(ps: seq<Product>, prod: Product, mode: Option<Mode>): (r: seq<Product>)
    ensures mode == Some(Create) ==> |r| == |ps| + 1 && r[0] == prod && r[1..] == ps
    ensures mode != Some(Create) ==> |r| == |ps| && Ids(r) == Ids(ps)
    ensures mode != Some(Create) ==> forall i :: 0 <= i < |ps| ==> r[i] == if ps[i].id == prod.id then prod else ps[i]
  {
    if mode == Some(Create) then [prod] + ps else Replace(ps, prod)
  }

  /** An update whose id matches nothing leaves the catalog as it was. */
  lemma UpdateWithoutMatch(ps: seq<Product>, prod: Product, mode: Option<Mode>)
    requires mode != Some(Create) && prod.id !in Ids(ps)
    ensures HandleSave(ps, prod, mode) == ps
  {
  }

  /** An update keeps ids unique; a create does when its id is new. */
  lemma SaveKeepsUniqueIds(ps: seq<Product>, prod: Product, mode: Option<Mode>)
    requires UniqueIds(ps)
    requires mode == Some(Create) ==> prod.id !in Ids(ps)
    ensures UniqueIds(HandleSave(ps, prod, mode))
  {
    var r := HandleSave(ps, prod, mode);
    if mode == Some(Create) {
      forall i, j | 0 <= i < j < |r| ensures r[i].id != r[j].id {
        assert r[j] == ps[j - 1];
        if i == 0 {
          assert Ids(ps)[j - 1] == ps[j - 1].id;
        } else {
          assert r[i] == ps[i - 1];
        }
      }
    } else {
      assert Ids(r) == Ids(ps);
      forall i, j | 0 <= i < j < |r| ensures r[i].id != r[j].id {
        assert r[i].id == Ids(r)[i] == ps[i].id;
        assert r[j].id == Ids(r)[j] == ps[j].id;
      }
    }
  }

  /** The keep-predicate of `handleDelete`. */
  function NotId(id: int): Product -> bool
  {
    (x: Product) => x.id != id
  }

  /** `handleDelete`: drops every product with the id, keeping the rest
      in order. */
  function HandleDelete(ps: seq<Product>, id: int): (r: seq<Product>)
    ensures Subseq(r, ps)
    ensures forall i :: 0 <= i < |r| ==> r[i].id != id
    ensures forall i :: 0 <= i < |ps| && ps[i].id != id ==> ps[i] in r
    ensures forall x: Product :: x.id != id ==> multiset(r)[x] == multiset(ps)[x]
  {
    FilterCounts(ps, NotId(id));
    Filter(ps, NotId(id))
  }

  /** With unique ids, a delete shrinks the catalog by exactly one when
      the id is present (splicing out that product) and leaves it as it
      was otherwise. */
  lemma DeleteLength(ps: seq<Product>, id: int)
    requires UniqueIds(ps)
    ensures id in Ids(ps) <==> |HandleDelete(ps, id)| == |ps| - 1
    ensures id !in Ids(ps) ==> HandleDelete(ps, id) == ps
  {
    if id in Ids(ps) {
      var k :| 0 <= k < |ps| && Ids(ps)[k] == id;
      FilterDropsOne(ps, NotId(id), k);
    } else {
      assert forall i :: 0 <= i < |ps| ==> ps[i].id in Ids(ps);
      FilterKeepsAll(ps, NotId(id));
    }
  }

  /** The keep-predicate of `likedProducts`. */
  function IsLiked(likedIds: seq<int>): Product -> bool
  {
    (p: Product) => p.id in likedIds
  }

  /** `likedProducts`: the catalog products whose id is liked, in catalog
      order. Liked ids without a product contribute nothing. */
  function LikedProducts(all: seq<Product>, likedIds: seq<int>): (r: seq<Product>)
    ensures Subseq(r, all)
    ensures forall i :: 0 <= i < |r| ==> r[i] in all && r[i].id in likedIds
    ensures forall i :: 0 <= i < |all| && all[i].id in likedIds ==> all[i] in r
  {
    Filter(all, IsLiked(likedIds))
  }

  /** Each liked product appears as often as in the catalog, and a liked
      id that no product carries never shows up. */
  lemma LikedProductsExact(all: seq<Product>, likedIds: seq<int>, p: Product, id: int)
    ensures p.id in likedIds ==> multiset(LikedProducts(all, likedIds))[p] == multiset(all)[p]
    ensures id in likedIds && id !in Ids(all) ==> id !in Ids(LikedProducts(all, likedIds))
  {
    FilterMultiplicity(all, IsLiked(likedIds), p);
    var r := LikedProducts(all, likedIds);
    if id in Ids(r) {
      var k :| 0 <= k < |r| && Ids(r)[k] == id;
      var j :| 0 <= j < |all| && all[j] == r[k];
      assert Ids(all)[j] == id;
    }
  }

  /** The keep-predicate of the title search. */
  function TitleMatches(search: string): Product -> bool
  {
    (p: Product) => Contains(Lower(p.title), Lower(search))
  }

  /** `filteredProducts`: the liked products whose lower-cased title
      includes the lower-cased search, in order. */
  function FilteredProducts(liked: seq<Product>, search: string): (r: seq<Product>)
    ensures Subseq(r, liked)
    ensures forall i :: 0 <= i < |r| ==> r[i] in liked && Contains(Lower(r[i].title), Lower(search))
    ensures forall i :: 0 <= i < |liked| && Contains(Lower(liked[i].title), Lower(search)) ==> liked[i] in r
    ensures forall x: Product :: Contains(Lower(x.title), Lower(search)) ==> multiset(r)[x] == multiset(liked)[x]
  {
    FilterCounts(liked, TitleMatches(search));
    Filter(liked, TitleMatches(search))
  }

  /** An empty search keeps every liked product. */
  lemma EmptySearchKeepsAll(liked: seq<Product>)
    ensures FilteredProducts(liked, "") == liked
  {
    forall i | 0 <= i < |liked| ensures TitleMatches("")(liked[i]) {
      ContainsEmpty(Lower(liked[i].title));
    }
    FilterKeepsAll(liked, TitleMatches(""));
  }

  /** What the page lists is an order-preserving subsequence of the catalog. */
  lemma ShownComeFromCatalog(all: seq<Product>, likedIds: seq<int>, search: string)
    ensures Subseq(FilteredProducts(LikedProducts(all, likedIds), search), all)
  {
    var liked := LikedProducts(all, likedIds);
    SubseqTrans(FilteredProducts(liked, search), liked, all);
  }

  /** The open modal: its props (the page's `modalInfo`) and its own state. */
  datatype OpenModal = OpenModal(props: Props, state: ModalState)

  /** The page state. */
  datatype Page = Page(load: Loader.LoadState<Product>, search: string, modal: Option<OpenModal>)

  /** The page right after mounting: empty catalog, load in flight, no modal. */
  function Mount(): (p: Page)
    ensures p.load.items == [] && p.load.loading && p.load.mounted && p.modal.None?
    ensures p.load.error.None? && p.search == ""
  {
    Page(Loader.Start(), "", None)
  }

  /** The catalog load settling. */
  function Settle(p: Page, o: Loader.LoadOutcome<Product>): (r: Page)
    ensures !p.load.mounted ==> r == p
    ensures o.Rejected? ==> r.load.items == p.load.items
    ensures p.load.mounted && o.Loaded? ==> r.load.items == o.data
    ensures r.modal == p.modal && r.search == p.search
  {
    p.(load := Loader.Settle(p.load, o))
  }

  /** `openModal`: sets the page's `modalInfo`. A modal already on screen
      keeps its own state and only receives the new props. */
  function Open(p: Page, product: Option<Product>, mode: Mode): (r: Page)
    ensures r.modal.Some? && r.modal.value.props == Props(product, mode, true)
    ensures p.modal.None? ==> r.modal.value.state == Init(r.modal.value.props)
    ensures p.modal.Some? ==> r.modal.value.state == p.modal.value.state
    ensures r.load == p.load && r.search == p.search
  {
    var props := Props(product, mode, true);
    match p.modal
    case None => p.(modal := Some(OpenModal(props, Init(props))))
    case Some(m) => p.(modal := Some(OpenModal(props, m.state)))
  }

  /** The mode `handleSave` reads: `modalInfo?.mode`. */
  function PageMode(p: Page): (m: Option<Mode>)
    ensures m.Some? <==> p.modal.Some?
    ensures m.Some? ==> m.value == p.modal.value.props.mode
  {
    match p.modal
    case None => None
    case Some(om) => Some(om.props.mode)
  }

  /** Carries out one effect of the modal: `onSave` is `handleSave`,
      `onDelete` is `handleDelete`, `onClose` clears `modalInfo`. */
  function ApplyEffect(p: Page, e: Effect): (r: Page)
    ensures r.search == p.search
    ensures r.load.mounted == p.load.mounted && r.load.loading == p.load.loading && r.load.error == p.load.error
    ensures e == Close ==> r.modal.None? && r.load == p.load
    ensures e.Delete? ==> r.modal == p.modal && e.id !in Ids(r.load.items)
    ensures e.Save? ==> r.modal == p.modal
    ensures e.Save? && PageMode(p) == Some(Create) ==> r.load.items == [e.product] + p.load.items
    ensures e.Save? && PageMode(p) != Some(Create) ==>
      |r.load.items| == |p.load.items| && Ids(r.load.items) == Ids(p.load.items)
  {
    match e
    case Save(prod) => p.(load := p.load.(items := HandleSave(p.load.items, prod, PageMode(p))))
    case Delete(id) => p.(load := p.load.(items := HandleDelete(p.load.items, id)))
    case Close => p.(modal := None)
  }

  /** Carries out the modal's effects in order. */
  function ApplyEffects(p: Page, effects: seq<Effect>): Page
    decreases |effects|
  {
    if |effects| == 0 then p
    else ApplyEffects(ApplyEffect(p, effects[0]), effects[1..])
  }

  /** A user action inside the modal; without a modal nothing happens. */
  function Act(p: Page, e: Event): (r: Page)
    ensures p.modal.None? ==> r == p
    ensures r.load.mounted == p.load.mounted && r.load.loading == p.load.loading && r.load.error == p.load.error
    ensures r.search == p.search
  {
    match p.modal
    case None => p
    case Some(m) =>
      var o := Step(m.props, m.state, e);
      ApplyEffectsKeepsFlags(p.(modal := Some(m.(state := o.state))), o.effects);
      ApplyEffects(p.(modal := Some(m.(state := o.state))), o.effects)
  }

  /** Helper for `Act`: effects touch only the catalog and the modal. */
  lemma {:induction false} ApplyEffectsKeepsFlags(p: Page, effects: seq<Effect>)
    ensures var r := ApplyEffects(p, effects);
      r.load.mounted == p.load.mounted && r.load.loading == p.load.loading && r.load.error == p.load.error
      && r.search == p.search
    decreases |effects|
  {
    if |effects| > 0 {
      var q := ApplyEffect(p, effects[0]);
      ApplyEffectsKeepsFlags(q, effects[1..]);
    }
  }

  /** The page's `modalInfo.mode` and the modal's own mode agree on
      whether a product is being created. */
  predicate ModesAgree(p: Page)
  {
    p.modal.Some? ==> (p.modal.value.state.mode == Create <==> p.modal.value.props.mode == Create)
  }

  /** Opening on a closed page makes the modes agree, and every action
      keeps them agreeing. */
  lemma ModesAgreeInvariant(p: Page, product: Option<Product>, mode: Mode, e: Event)
    ensures p.modal.None? ==> ModesAgree(Open(p, product, mode))
    ensures ModesAgree(p) ==> ModesAgree(Act(p, e))
  {
    if ModesAgree(p) && p.modal.Some? {
      var m := p.modal.value;
      var o := Step(m.props, m.state, e);
      ModesAgreeAfterEffects(p.(modal := Some(m.(state := o.state))), o.effects);
    }
  }

  /** Helper: effects never reopen a modal, so agreement survives them. */
  lemma {:induction false} ModesAgreeAfterEffects(p: Page, effects: seq<Effect>)
    requires ModesAgree(p)
    ensures ModesAgree(ApplyEffects(p, effects))
    ensures ApplyEffects(p, effects).modal.Some? ==> ApplyEffects(p, effects).modal == p.modal
    decreases |effects|
  {
    if |effects| > 0 {
      var q := ApplyEffect(p, effects[0]);
      ModesAgreeAfterEffects(q, effects[1..]);
    }
  }

  /** Creating from a closed page: the catalog gains the submitted product
      at its head, carrying the supplied id, and the modal closes. */
  lemma CreateScenario(p: Page, data: ProductForm.FormData, now: int)
    requires p.modal.None?
    ensures var r := Act(Open(p, None, Create), FormSubmitted(data, now));
      && r.modal.None?
      && r.load.items == [Submitted(None, Create, data, now)] + p.load.items
      && r.load.items[0].id == now
  {
    var q := Open(p, None, Create);
    var m := q.modal.value;
    var prod := Submitted(None, Create, data, now);
    assert Step(m.props, m.state, FormSubmitted(data, now)).effects == [Save(prod), Close];
    var q1 := q.(modal := Some(m));
    var q2 := q1.(load := q1.load.(items := [prod] + p.load.items));
    assert ApplyEffects(q1, [Save(prod), Close]) == ApplyEffects(q2, [Close]);
    assert ApplyEffects(q2, [Close]) == ApplyEffects(q2.(modal := None), []);
  }

  /** Viewing a product, asking to delete it and confirming removes every
      product with its id and closes the modal. */
  lemma DeleteScenario(p: Page, prod: Product)
    requires p.modal.None?
    ensures var r := Act(Act(Open(p, Some(prod), View), DeleteClicked), ConfirmAccepted);
      && r.modal.None?
      && prod.id !in Ids(r.load.items)
      && r.load.items == HandleDelete(p.load.items, prod.id)
  {
    var q := Open(p, Some(prod), View);
    var m := q.modal.value;
    assert Step(m.props, m.state, DeleteClicked).effects == [];
    var q1 := Act(q, DeleteClicked);
    assert q1 == q.(modal := Some(m.(state := m.state.(confirmOpen := true))));
    var m1 := q1.modal.value;
    assert Step(m1.props, m1.state, ConfirmAccepted).effects == [Delete(prod.id), Close];
    var q2 := q1.(load := q1.load.(items := HandleDelete(p.load.items, prod.id)));
    assert ApplyEffects(q1, [Delete(prod.id), Close]) == ApplyEffects(q2, [Close]);
    assert ApplyEffects(q2, [Close]) == ApplyEffects(q2.(modal := None), []);
    var r := q2.(modal := None);
    assert forall i :: 0 <= i < |r.load.items| ==> Ids(r.load.items)[i] != prod.id;
  }
}

=== FILE: likes_slice.dfy ===
/** The `likes` slice of the application store: the ids of the products
    the user has liked, with its five reducers. Each reducer is a pure
    function on the id list. */
module LikesSlice {
  import opened Seqs

  /** The slice state. */
  datatype LikesState = LikesState(likedProductIds: seq<int>)

  /** The slice's actions, one per reducer. */
  datatype LikesAction =
    | ToggleLike(id: int)
    | AddLike(id: int)
    | RemoveLike(id: int)
    | SetLikes(ids: seq<int>)
    | ClearLikes

  /** The state the store starts from: nothing liked. */
  const InitialState := LikesState([])

  /** `toggleLike`: removes the first occurrence of `id` if there is one,
      otherwise appends `id`. */
  function Toggle(ids: seq<int>, id: int): (r: seq<int>)
    ensures id !in ids ==> r == ids + [id]
    ensures id in ids ==>
      |r| == |ids| - 1
      && exists k :: 0 <= k < |ids| && ids[k] == id && id !in ids[..k]
                     && r[..k] == ids[..k] && r[k..] == ids[k + 1..]
  {
    var index := IndexOf(ids, id);
    if index > -1 then ids[..index] + ids[index + 1..]
    else ids + [id]
  }

  /** `addLike`: appends `id` unless it is already liked. */
  function Add(ids: seq<int>, id: int): (r: seq<int>)
    ensures id in r
    ensures id in ids ==> r == ids
    ensures id !in ids ==> r == ids + [id]
  {
    if id !in ids then ids + [id] else ids
  }

  /** The keep-predicate of `removeLike`. */
  function Other(id: int): int -> bool
  {
    likedId => likedId != id
  }

  /** `removeLike`: drops every occurrence of `id`, keeping the rest in order. */
  function Remove(ids: seq<int>, id: int): (r: seq<int>)
    ensures id !in r
    ensures Subseq(r, ids)
    ensures forall i :: 0 <= i < |ids| && ids[i] != id ==> ids[i] in r
    ensures id !in ids ==> r == ids
  {
    RemoveAbsent(ids, id);
    Filter(ids, Other(id))
  }

  /** Helper for `Remove`: filtering out an absent id keeps the list. */
  lemma RemoveAbsent(ids: seq<int>, id: int)
    ensures id !in ids ==> Filter(ids, Other(id)) == ids
  {
  }

  /** The slice reducer. It keeps the liked list free of duplicates,
      except that `setLikes` installs whatever list it is given. */
  function Reduce(s: LikesState, a: LikesAction): (r: LikesState)
    ensures NoDup(s.likedProductIds) && !a.SetLikes? ==> NoDup(r.likedProductIds)
    ensures a.SetLikes? ==> r.likedProductIds == a.ids
    ensures a.ClearLikes? ==> r.likedProductIds == []
    ensures a.ToggleLike? ==> r.likedProductIds == Toggle(s.likedProductIds, a.id)
    ensures a.AddLike? ==> r.likedProductIds == Add(s.likedProductIds, a.id)
    ensures a.RemoveLike? ==> r.likedProductIds == Remove(s.likedProductIds, a.id)
  {
    var ids := s.likedProductIds;
    match a
    case ToggleLike(id) =>
      ToggleKeepsNoDup(ids, id);
      LikesState(Toggle(ids, id))
    case AddLike(id) => LikesState(Add(ids, id))
    case RemoveLike(id) =>
      RemoveKeepsNoDup(ids, id);
      LikesState(Remove(ids, id))
    case SetLikes(payload) => LikesState(payload)
    case ClearLikes => LikesState([])
  }

  /** Toggling keeps a duplicate-free list duplicate-free. */
  lemma ToggleKeepsNoDup(ids: seq<int>, id: int)
    ensures NoDup(ids) ==> NoDup(Toggle(ids, id))
  {
    if NoDup(ids) && id in ids {
      var k := IndexOf(ids, id);
      var r := Toggle(ids, id);
      forall i, j | 0 <= i < j < |r|
        ensures r[i] != r[j]
      {
        var i' := if i < k then i else i + 1;
        var j' := if j < k then j else j + 1;
        assert r[i] == ids[i'] && r[j] == ids[j'];
      }
    }
  }

  /** Removing keeps a duplicate-free list duplicate-free. */
  lemma RemoveKeepsNoDup(ids: seq<int>, id: int)
    ensures NoDup(ids) ==> NoDup(Remove(ids, id))
  {
    if NoDup(ids) {
      SubseqNoDup(Remove(ids, id), ids);
    }
  }

  /** Adding keeps a duplicate-free list duplicate-free. */
  lemma AddKeepsNoDup(ids: seq<int>, id: int)
    ensures NoDup(ids) ==> NoDup(Add(ids, id))
  {
  }

  /** Toggling changes the membership of `id` and of no other id. */
  lemma ToggleMembership(ids: seq<int>, id: int)
    ensures forall x :: x != id ==> (x in Toggle(ids, id) <==> x in ids)
    ensures id in Toggle(ids, id) <==> id !in ids || multiset(ids)[id] > 1
  {
    if id in ids {
      var k := IndexOf(ids, id);
      assert ids == ids[..k] + [id] + ids[k + 1..];
      var r := Toggle(ids, id);
      assert r == ids[..k] + ids[k + 1..];
      assert multiset(ids) == multiset(r) + multiset{id};
    }
  }

  /** Removing keeps every other id with its multiplicity. */
  lemma RemoveMembership(ids: seq<int>, id: int)
    ensures forall x :: x != id ==> multiset(Remove(ids, id))[x] == multiset(ids)[x]
  {
    forall x | x != id
      ensures multiset(Remove(ids, id))[x] == multiset(ids)[x]
    {
      FilterMultiplicity(ids, Other(id), x);
    }
  }

  /** Removing the first occurrence from a duplicate-free list leaves no
      occurrence behind. */
  lemma ToggleRemovesAll(ids: seq<int>, id: int)
    requires NoDup(ids) && id in ids
    ensures id !in Toggle(ids, id)
  {
  }

  /** Toggling the same id twice restores the membership of every id when
      the list has no duplicates; an id that was not liked leaves the list
      exactly as it was. */
  lemma ToggleTwice(ids: seq<int>, id: int)
    requires NoDup(ids)
    ensures forall x :: x in Toggle(Toggle(ids, id), id) <==> x in ids
    ensures id !in ids ==> Toggle(Toggle(ids, id), id) == ids
  {
    var t := Toggle(ids, id);
    ToggleMembership(ids, id);
    ToggleMembership(t, id);
    if id in ids {
      ToggleRemovesAll(ids, id);
    } else {
      assert t == ids + [id];
      assert t[..|ids|] == ids;
      assert IndexOf(t, id) == |ids|;
    }
  }

  /** Toggling a present id removes exactly one copy of it. */
  lemma ToggleCount(ids: seq<int>, id: int)
    requires id in ids
    ensures multiset(Toggle(ids, id)) == multiset(ids) - multiset{id}
  {
    var k := IndexOf(ids, id);
    assert ids == ids[..k] + [id] + ids[k + 1..];
    assert Toggle(ids, id) == ids[..k] + ids[k + 1..];
  }

  /** An id held exactly twice (as in `[5, 5]`) is removed entirely by two
      toggles, so toggling twice does not restore its membership. */
  lemma ToggleTwiceWithDuplicate(ids: seq<int>, id: int)
    requires multiset(ids)[id] == 2
    ensures id in ids && id !in Toggle(Toggle(ids, id), id)
  {
    var t := Toggle(ids, id);
    ToggleCount(ids, id);
    assert multiset(t)[id] == 1;
    ToggleCount(t, id);
    assert multiset(Toggle(t, id))[id] == 0;
  }

  /** Adding is idempotent. */
  lemma AddIdempotent(ids: seq<int>, id: int)
    ensures Add(Add(ids, id), id) == Add(ids, id)
  {
  }

  /** Applies the actions in order, as the store dispatches them. */
  function ReduceAll(s: LikesState, actions: seq<LikesAction>): LikesState
    decreases |actions|
  {
    if |actions| == 0 then s else ReduceAll(Reduce(s, actions[0]), actions[1..])
  }

  /** The liked list never holds a duplicate when it starts from the
      initial state and only toggle, add, remove and clear are dispatched. */
  lemma {:induction false} ReachableNoDup(s: LikesState, actions: seq<LikesAction>)
    requires s == InitialState || NoDup(s.likedProductIds)
    requires forall i :: 0 <= i < |actions| ==> !actions[i].SetLikes?
    ensures NoDup(ReduceAll(s, actions).likedProductIds)
    decreases |actions|
  {
    if |actions| > 0 {
      ReachableNoDup(Reduce(s, actions[0]), actions[1..]);
    }
  }
}

=== FILE: loader.dfy ===
/** The product-list load both catalog pages run on mount: a fetch whose
    outcome is applied only while the page is still mounted. The fetch
    itself is not modelled; its outcome is an input. */
module Loader {
  import opened Wrappers

  /** The page state a load touches: the list, the `loading` flag, the
      error message, and the effect's `isMounted` flag. */
  datatype LoadState<T> = LoadState(items: seq<T>, loading: bool, error: Option<string>, mounted: bool)

  /** How a fetch settles: with the decoded list, or with a thrown value
      (`Some(message)` for an `Error`, `None` for anything else). */
  datatype LoadOutcome<T> = Loaded(data: seq<T>) | Rejected(message: Option<string>)

  /** The message thrown when the response status is not ok. */
  const StatusError := "Failed to load products"

  /** The message shown when the thrown value is not an `Error`. */
  const UnknownError := "Unknown error"

  /** The outcome of a response: a non-ok status throws `StatusError`
      before the body is read. */
  function FromResponse<T>(ok: bool, data: seq<T>): (o: LoadOutcome<T>)
    ensures ok <==> o == Loaded(data)
    ensures !ok ==> o == Rejected(Some(StatusError))
  {
    if !ok then Rejected(Some(StatusError)) else Loaded(data)
  }

  /** The state right after the mount effect has started the fetch. */
  function Start<T>(): (s: LoadState<T>)
    ensures s.mounted && s.loading && s.error.None? && s.items == []
  {
    LoadState([], true, None, true)
  }

  /** The effect's cleanup: later settlements are ignored. */
  function Unmount<T>(s: LoadState<T>): (r: LoadState<T>)
    ensures !r.mounted
    ensures r.items == s.items && r.loading == s.loading && r.error == s.error
  {
    s.(mounted := false)
  }

  /** Applies a settled fetch. A success replaces the whole list; a failure
      keeps the previous list and records the message; either way the
      loading flag drops. Nothing happens once the page has unmounted. */
  function Settle<T>(s: LoadState<T>, o: LoadOutcome<T>): (r: LoadState<T>)
    ensures !s.mounted ==> r == s
    ensures s.mounted ==> r.mounted && !r.loading
    ensures s.mounted && o.Loaded? ==> r.items == o.data && r.error == s.error
    ensures s.mounted && o.Rejected? ==> r.items == s.items && r.error.Some?
    ensures s.mounted && o.Rejected? && o.message.Some? ==> r.error == o.message
    ensures s.mounted && o.Rejected? && o.message.None? ==> r.error == Some(UnknownError)
  {
    if !s.mounted then s
    else
      match o
      case Loaded(data) => s.(items := data, loading := false)
      case Rejected(m) => s.(error := Some(m.GetOr(UnknownError)), loading := false)
  }

  /** Once unmounted, no sequence of settlements changes anything. */
  lemma {:induction false} UnmountedIgnoresAll<T>(s: LoadState<T>, os: seq<LoadOutcome<T>>)
    ensures SettleAll(Unmount(s), os) == Unmount(s)
    decreases |os|
  {
    if |os| > 0 {
      UnmountedIgnoresAll(s, os[1..]);
    }
  }

  /** Settles a series of fetches in arrival order. */
  function SettleAll<T>(s: LoadState<T>, os: seq<LoadOutcome<T>>): LoadState<T>
    decreases |os|
  {
    if |os| == 0 then s else SettleAll(Settle(s, os[0]), os[1..])
  }
}

=== FILE: product_form.dfy ===
/** The product form: five flat fields derived from a (partial) product,
    edited one at a time and submitted as one record. */
module ProductForm {
  import opened Wrappers
  import opened Catalog

  /** What the form submits. */
  datatype FormData = FormData(title: string, price: real, description: string, category: string, image: string)

  /** The form's initial product: any field may be absent. */
  datatype Draft = Draft(
    title: Option<string>,
    price: Option<real>,
    description: Option<string>,
    category: Option<Category>,
    images: Option<seq<string>>)

  /** A complete product seen as a draft. */
  function DraftOf(p: Product): (d: Draft)
    ensures d.title == Some(p.title) && d.price == Some(p.price) && d.description == Some(p.description)
    ensures d.category == Some(p.category) && d.images == Some(p.images)
  {
    Draft(Some(p.title), Some(p.price), Some(p.description), Some(p.category), Some(p.images))
  }

  /** The five field states of the form. */
  datatype FormState = FormState(title: string, price: real, description: string, category: string, image: string)

  /** The initial field values. Title and description fall back to `''`
      and price to 0; a string category is taken as is, an object category
      contributes its `name`, and `''` is used otherwise; the image is the
      first image when there is at least one. */
  function Init(initial: Option<Draft>): (f: FormState)
    ensures initial.Some? && initial.value.title.Some? ==> f.title == initial.value.title.value
    ensures initial.None? || initial.value.title.None? ==> f.title == ""
    ensures initial.Some? && initial.value.price.Some? ==> f.price == initial.value.price.value
    ensures initial.None? || initial.value.price.None? ==> f.price == 0.0
    ensures initial.Some? && initial.value.description.Some? ==> f.description == initial.value.description.value
    ensures initial.None? || initial.value.description.None? ==> f.description == ""
    ensures initial.Some? && initial.value.category.Some? && initial.value.category.value.Str? ==>
              f.category == initial.value.category.value.value
    ensures (initial.Some? && initial.value.category.Some? && initial.value.category.value.Obj?
             && initial.value.category.value.name.Some?) ==> f.category == initial.value.category.value.name.value
    ensures (initial.None? || initial.value.category.None?
             || (initial.value.category.value.Obj? && initial.value.category.value.name.None?)) ==> f.category == ""
    ensures initial.Some? && initial.value.images.Some? && |initial.value.images.value| > 0 ==>
              f.image == initial.value.images.value[0]
    ensures initial.None? || initial.value.images.None? || |initial.value.images.value| == 0 ==> f.image == ""
  {
    match initial
    case None => FormState("", 0.0, "", "", "")
    case Some(d) =>
      FormState(
        d.title.GetOr(""),
        d.price.GetOr(0.0),
        d.description.GetOr(""),
        match d.category case Some(c) => CategoryName(c) case None => "",
        match d.images case Some(imgs) => (if |imgs| > 0 then imgs[0] else "") case None => "")
  }

  /** A change made through one of the inputs. */
  datatype Edit =
    | SetTitle(title: string)
    | SetPrice(price: real)
    | SetDescription(description: string)
    | SetCategory(category: string)
    | SetImage(image: string)

  /** Applies one input change; only the edited field moves. */
  function ApplyEdit(f: FormState, e: Edit): (r: FormState)
    ensures e.SetTitle? ==> r == f.(title := e.title)
    ensures e.SetPrice? ==> r == f.(price := e.price)
    ensures e.SetDescription? ==> r == f.(description := e.description)
    ensures e.SetCategory? ==> r == f.(category := e.category)
    ensures e.SetImage? ==> r == f.(image := e.image)
  {
    match e
    case SetTitle(t) => f.(title := t)
    case SetPrice(p) => f.(price := p)
    case SetDescription(d) => f.(description := d)
    case SetCategory(c) => f.(category := c)
    case SetImage(i) => f.(image := i)
  }

  /** The form's submit handler: the current field values, as they are. */
  function Submit(f: FormState): (d: FormData)
    ensures d.title == f.title && d.price == f.price && d.description == f.description
    ensures d.category == f.category && d.image == f.image
  {
    FormData(f.title, f.price, f.description, f.category, f.image)
  }
}

=== FILE: product_modal.dfy ===
/** The product modal: a small state machine over the `view`, `edit` and
    `create` modes plus a confirm-delete flag. It reports what it asks of
    its host as effects: save a product, delete an id, close. */
module ProductModal {
  import opened Wrappers
  import opened Catalog
  import opened ProductForm

  datatype Mode = View | Edit | Create

  /** The modal's props: the held product (absent when creating), the
      mode it opens in, and whether an `onDelete` callback was passed. */
  datatype Props = Props(product: Option<Product>, mode: Mode, hasOnDelete: bool)

  /** The modal's own state: its current mode and the confirm flag. */
  datatype ModalState = ModalState(mode: Mode, confirmOpen: bool)

  /** What the modal asks of its host, in call order. */
  datatype Effect = Save(product: Product) | Delete(id: int) | Close

  /** The user actions the modal reacts to. `now` stands for the clock
      reading the submit handler takes as the id of a created product. */
  datatype Event =
    | EditClicked
    | DeleteClicked
    | CloseClicked
    | FormCancelled
    | FormSubmitted(data: FormData, now: int)
    | ConfirmAccepted
    | ConfirmCancelled

  datatype Outcome = Outcome(state: ModalState, effects: seq<Effect>)

  /** The state a freshly mounted modal starts in. */
  function Init(props: Props): (s: ModalState)
    ensures s.mode == props.mode && !s.confirmOpen
  {
    ModalState(props.mode, false)
  }

  /** The product the modal works on when none is held. */
  const Blank := Product(0, "", 0.0, "", Str(""), [])

  /** The held product, or the blank one. */
  function Current(product: Option<Product>): (p: Product)
    ensures product.Some? ==> p == product.value
    ensures product.None? ==> p.id == 0 && p.images == []
  {
    product.GetOr(Blank)
  }

  /** The images a submitted form yields: its one image, if non-empty. */
  function ImagesOf(image: string): (r: seq<string>)
    ensures |r| <= 1
    ensures |r| == 1 <==> image != ""
    ensures |r| == 1 ==> r[0] == image
  {
    if image != "" then [image] else []
  }

  /** The form data spread over the current product: every field but the
      id comes from the form, the category as a plain string and the image
      as a list of at most one. */
  function Merge(current: Product, data: FormData): (p: Product)
    ensures p.id == current.id
    ensures p.title == data.title && p.price == data.price && p.description == data.description
    ensures p.category == Str(data.category)
    ensures p.images == ImagesOf(data.image)
  {
    Product(current.id, data.title, data.price, data.description, Str(data.category), ImagesOf(data.image))
  }

  /** The product a submit hands to `onSave`: the merge, with the supplied
      clock reading as id in create mode. */
  function Submitted(product: Option<Product>, mode: Mode, data: FormData, now: int): (p: Product)
    ensures mode == Create ==> p.id == now
    ensures mode != Create && product.Some? ==> p.id == product.value.id
    ensures mode != Create && product.None? ==> p.id == 0
    ensures p.title == data.title && p.price == data.price && p.description == data.description
    ensures p.category == Str(data.category) && p.images == ImagesOf(data.image)
  {
    var updated := Merge(Current(product), data);
    if mode == Create then updated.(id := now) else updated
  }

  /** One user action. Controls are rendered by mode: Edit, Delete and
      Close in `view`, the form in `edit` and `create`, the confirm dialog
      while the flag is set; an action on a control that is not rendered
      does nothing. */
  function Step(props: Props, s: ModalState, e: Event): (o: Outcome)
    ensures o.state.mode == Create <==> s.mode == Create
    ensures |o.effects| <= 2
    ensures Close in o.effects ==> o.effects[|o.effects| - 1] == Close
    ensures o.effects == [] || Close in o.effects
  {
    var inView := s.mode == View;
    var inForm := s.mode == Edit || s.mode == Create;
    var stay := Outcome(s, []);
    match e
    case EditClicked =>
      if inView then Outcome(s.(mode := Edit), []) else stay
    case DeleteClicked =>
      if inView && props.product.Some? then Outcome(s.(confirmOpen := true), []) else stay
    case CloseClicked =>
      if inView then Outcome(s, [Close]) else stay
    case FormCancelled =>
      if !inForm then stay
      else if s.mode == Create then Outcome(s, [Close])
      else Outcome(s.(mode := View), [])
    case FormSubmitted(data, now) =>
      if inForm then Outcome(s, [Save(Submitted(props.product, s.mode, data, now)), Close]) else stay
    case ConfirmAccepted =>
      if s.confirmOpen && props.product.Some? && props.hasOnDelete
      then Outcome(s, [Delete(props.product.value.id), Close])
      else stay
    case ConfirmCancelled =>
      if s.confirmOpen then Outcome(s.(confirmOpen := false), []) else stay
  }

  /** Runs actions until one of them closes the modal (the host then
      unmounts it), collecting the effects. */
  function Run(props: Props, s: ModalState, events: seq<Event>): (o: Outcome)
    decreases |events|
  {
    if |events| == 0 then Outcome(s, [])
    else
      var first := Step(props, s, events[0]);
      if Close in first.effects then first
      else
        var rest := Run(props, first.state, events[1..]);
        Outcome(rest.state, first.effects + rest.effects)
  }

  /** A modal that opened in `create` stays in `create`, and one that did
      not never reaches it, whatever the user does. */
  lemma {:induction false} CreateModeIsFixed(props: Props, s: ModalState, events: seq<Event>)
    ensures Run(props, s, events).state.mode == Create <==> s.mode == Create
    decreases |events|
  {
    if |events| > 0 {
      var first := Step(props, s, events[0]);
      if Close !in first.effects {
        CreateModeIsFixed(props, first.state, events[1..]);
      }
    }
  }

  /** Submitting from the form calls `onSave` once and then `onClose`;
      outside create mode the saved product keeps the held id and takes
      every other field from the form. */
  lemma SubmitSavesThenCloses(props: Props, s: ModalState, data: FormData, now: int)
    requires s.mode == Edit || s.mode == Create
    ensures var o := Step(props, s, FormSubmitted(data, now));
      && |o.effects| == 2 && o.effects[1] == Close && o.effects[0].Save?
      && var p := o.effects[0].product;
      && (s.mode == Edit && props.product.Some? ==> p.id == props.product.value.id)
      && (s.mode == Create ==> p.id == now)
      && p.title == data.title && p.price == data.price && p.description == data.description
      && p.category == Str(data.category) && |p.images| <= 1
  {
  }

  /** In create mode the saved product does not depend on the held one. */
  lemma CreateIgnoresHeldProduct(p1: Option<Product>, p2: Option<Product>, data: FormData, now: int)
    ensures Submitted(p1, Create, data, now) == Submitted(p2, Create, data, now)
  {
  }

  /** Delete opens the confirmation only when a product is held; with no
      product nothing changes. */
  lemma DeleteRequestNeedsProduct(props: Props, s: ModalState)
    requires s.mode == View
    ensures var o := Step(props, s, DeleteClicked);
      && o.effects == []
      && o.state.mode == s.mode
      && (o.state.confirmOpen <==> s.confirmOpen || props.product.Some?)
      && (props.product.None? ==> o.state == s)
  {
  }

  /** Confirming deletes the held product's id and closes exactly when a
      product and an `onDelete` callback are both present; otherwise
      nothing happens and the dialog stays open. */
  lemma ConfirmDeletes(props: Props, s: ModalState)
    requires s.confirmOpen
    ensures var o := Step(props, s, ConfirmAccepted);
      && (props.product.Some? && props.hasOnDelete <==> o.effects != [])
      && (o.effects != [] ==> o.effects == [Delete(props.product.value.id), Close])
      && (o.effects == [] ==> o.state == s)
  {
  }

  /** The Edit button moves `view` to `edit`; form cancel closes in
      `create` and returns `edit` to `view`; confirm cancel only clears the
      flag. */
  lemma ModeTransitions(props: Props, s: ModalState)
    ensures s.mode == View ==> Step(props, s, EditClicked) == Outcome(s.(mode := Edit), [])
    ensures s.mode == View ==> Step(props, s, CloseClicked) == Outcome(s, [Close])
    ensures s.mode != View ==> Step(props, s, CloseClicked) == Outcome(s, [])
    ensures s.mode == Create ==> Step(props, s, FormCancelled).effects == [Close]
    ensures s.mode == Edit ==> Step(props, s, FormCancelled) == Outcome(s.(mode := View), [])
    ensures s.confirmOpen ==> Step(props, s, ConfirmCancelled) == Outcome(s.(confirmOpen := false), [])
  {
  }

  /** Opening the form on a product with a string category and submitting
      it untouched gives the product back, except that its images collapse
      to the first one (or to none when the first is missing or empty). */
  lemma EditRoundTrip(p: Product, now: int)
    requires p.category.Str?
    ensures var data := Submit(ProductForm.Init(Some(DraftOf(p))));
      Submitted(Some(p), Edit, data, now)
        == p.(images := if |p.images| > 0 && p.images[0] != "" then [p.images[0]] else [])
  {
  }
}

=== FILE: products_page.dfy ===
/** The products page: the catalog as fetched, its category facets, and
    the title-and-category filter. The page declares its own record type,
    whose category is always a plain string. */
module ProductsPage {
  import opened Seqs
  import opened Text
  import Loader

  /** A product as this page types it. */
  datatype Item = Item(id: int, title: string, price: real, description: string, category: string, image: string)

  /** The category option that disables the category filter. */
  const AllCategories := "all"

  /** The category of every item, in list order. */
  function CategoriesOf(items: seq<Item>): (r: seq<string>)
    ensures |r| == |items|
    ensures forall i :: 0 <= i < |items| ==> r[i] == items[i].category
  {
    seq(|items|, i requires 0 <= i < |items| => items[i].category)
  }

  /** `categories`: each category once, in the order it is first seen. */
  function Categories(items: seq<Item>): (r: seq<string>)
    ensures NoDup(r)
    ensures forall i :: 0 <= i < |r| ==> r[i] in CategoriesOf(items)
    ensures forall i :: 0 <= i < |items| ==> items[i].category in r
    ensures forall a, b :: 0 <= a < b < |r| ==>
      IndexOf(CategoriesOf(items), r[a]) < IndexOf(CategoriesOf(items), r[b])
  {
    Distinct(CategoriesOf(items))
  }

  /** The filter test: the lower-cased title includes the lower-cased
      search, and the category is `'all'` or exactly the item's. */
  predicate Matches(p: Item, search: string, category: string)
  {
    Contains(Lower(p.title), Lower(search)) && (category == AllCategories || p.category == category)
  }

  /** `filteredProducts`: the matching items, in list order. */
  function FilteredProducts(items: seq<Item>, search: string, category: string): (r: seq<Item>)
    ensures Subseq(r, items)
    ensures forall i :: 0 <= i < |r| ==> r[i] in items && Matches(r[i], search, category)
    ensures forall i :: 0 <= i < |items| && Matches(items[i], search, category) ==> items[i] in r
  {
    Filter(items, (p: Item) => Matches(p, search, category))
  }

  /** Every matching item is kept as often as it occurs. */
  lemma FilteredMultiplicity(items: seq<Item>, search: string, category: string, p: Item)
    ensures Matches(p, search, category) ==> multiset(FilteredProducts(items, search, category))[p] == multiset(items)[p]
    ensures !Matches(p, search, category) ==> p !in FilteredProducts(items, search, category)
  {
    FilterMultiplicity(items, (q: Item) => Matches(q, search, category), p);
  }

  /** With no search text and every category the whole list is shown. */
  lemma NoFilterShowsAll(items: seq<Item>)
    ensures FilteredProducts(items, "", AllCategories) == items
  {
    FilterKeepsAll(items, (p: Item) => Matches(p, "", AllCategories));
  }

  /** What the page derives for display. */
  datatype Listing = Listing(categories: seq<string>, shown: seq<Item>, total: nat)

  /** The page's derived values; `total` counts the filtered items. */
  function Derive(items: seq<Item>, search: string, category: string): (v: Listing)
    ensures v.total == |v.shown| <= |items|
    ensures v.shown == FilteredProducts(items, search, category)
    ensures v.categories == Categories(items)
  {
    var shown := FilteredProducts(items, search, category);
    Listing(Categories(items), shown, |shown|)
  }

  /** The facets depend only on the items: a filter never hides a category
      choice. */
  lemma FacetsIgnoreFilter(items: seq<Item>, s1: string, c1: string, s2: string, c2: string)
    ensures Derive(items, s1, c1).categories == Derive(items, s2, c2).categories
  {
  }

  /** The facets of a list without repeated categories are its categories
      in list order. */
  lemma {:induction false} DistinctCategoriesKept(items: seq<Item>)
    requires NoDup(CategoriesOf(items))
    ensures Categories(items) == CategoriesOf(items)
  {
    DistinctOfNoDup(CategoriesOf(items));
  }

  /** The page's load, as on the likes page. */
  function Settle(s: Loader.LoadState<Item>, o: Loader.LoadOutcome<Item>): (r: Loader.LoadState<Item>)
    ensures !s.mounted ==> r == s
    ensures o.Rejected? ==> r.items == s.items
    ensures s.mounted && o.Loaded? ==> r.items == o.data
  {
    Loader.Settle(s, o)
  }
}

=== FILE: seqs.dfy ===
/** Sequence helpers mirroring the JavaScript array operations the
    source relies on (`indexOf`, `filter`, insertion-ordered `Set`). */
module Seqs {

  /** No element occurs twice. */
  predicate NoDup<T(==)>(s: seq<T>)
  {
    forall i, j :: 0 <= i < j < |s| ==> s[i] != s[j]
  }

  /** `a` is an order-preserving subsequence of `b`. */
  ghost predicate Subseq<T>(a: seq<T>, b: seq<T>)
    decreases |b|
  {
    if |a| == 0 then true
    else if |b| == 0 then false
    else if a[0] == b[0] then Subseq(a[1..], b[1..])
    else Subseq(a, b[1..])
  }

  /** `Array.prototype.indexOf`: the first position of `x`, or -1. */
  function IndexOf<T(==)>(s: seq<T>, x: T): (i: int)
    ensures -1 <= i < |s|
    ensures i == -1 <==> x !in s
    ensures 0 <= i ==> s[i] == x && x !in s[..i]
  {
    if |s| == 0 then -1
    else if s[0] == x then 0
    else
      var j := IndexOf(s[1..], x);
      if j == -1 then -1
      else
        assert s[..j + 1] == [s[0]] + s[1..][..j];
        j + 1
  }

  /** Every element of `s[..k]` is first found before position `k`. */
  lemma IndexOfBefore<T>(s: seq<T>, x: T, k: nat)
    requires k <= |s| && x in s[..k]
    ensures 0 <= IndexOf(s, x) < k
  {
  }

  /** Appending elements does not move the first occurrence of an element
      that was already present. */
  lemma IndexOfPrefix<T>(s: seq<T>, k: nat, x: T)
    requires k <= |s| && x in s[..k]
    ensures IndexOf(s, x) == IndexOf(s[..k], x)
  {
    IndexOfBefore(s, x, k);
    var i := IndexOf(s, x);
    var j := IndexOf(s[..k], x);
    assert s[..k][..i] == s[..i];
    assert s[..k][..j] == s[..j];
  }

  /** `Array.prototype.filter`: the elements satisfying `keep`, in order. */
  function Filter<T>(s: seq<T>, keep: T -> bool): (r: seq<T>)
    ensures |r| <= |s|
    ensures Subseq(r, s)
    ensures forall i :: 0 <= i < |r| ==> r[i] in s && keep(r[i])
    ensures forall i :: 0 <= i < |s| && keep(s[i]) ==> s[i] in r
  {
    if |s| == 0 then []
    else
      var rest := Filter(s[1..], keep);
      if keep(s[0]) then [s[0]] + rest
      else
        assert |rest| > 0 ==> rest[0] != s[0];
        rest
  }

  /** Filtering keeps the full multiplicity of every kept element, so it
      is determined by `keep` alone. */
  lemma {:induction false} FilterMultiplicity<T>(s: seq<T>, keep: T -> bool, x: T)
    ensures keep(x) ==> multiset(Filter(s, keep))[x] == multiset(s)[x]
    ensures !keep(x) ==> multiset(Filter(s, keep))[x] == 0
  {
    if |s| > 0 {
      FilterMultiplicity(s[1..], keep, x);
      assert s == [s[0]] + s[1..];
    }
  }

  /** `FilterMultiplicity` for every element at once. */
  lemma FilterCounts<T>(s: seq<T>, keep: T -> bool)
    ensures forall x :: keep(x) ==> multiset(Filter(s, keep))[x] == multiset(s)[x]
    ensures forall x :: !keep(x) ==> multiset(Filter(s, keep))[x] == 0
  {
    forall x
      ensures (keep(x) ==> multiset(Filter(s, keep))[x] == multiset(s)[x])
           && (!keep(x) ==> multiset(Filter(s, keep))[x] == 0)
    {
      FilterMultiplicity(s, keep, x);
    }
  }

  /** A filter that rejects nothing returns its input. */
  lemma {:induction false} FilterKeepsAll<T>(s: seq<T>, keep: T -> bool)
    requires forall i :: 0 <= i < |s| ==> keep(s[i])
    ensures Filter(s, keep) == s
  {
    if |s| > 0 {
      FilterKeepsAll(s[1..], keep);
    }
  }

  /** A filter that rejects exactly the element at `k` splices it out. */
  lemma {:induction false} FilterDropsOne<T>(s: seq<T>, keep: T -> bool, k: nat)
    requires k < |s| && !keep(s[k])
    requires forall i :: 0 <= i < |s| && i != k ==> keep(s[i])
    ensures Filter(s, keep) == s[..k] + s[k + 1..]
  {
    var t := s[1..];
    if k == 0 {
      forall i | 0 <= i < |t| ensures keep(t[i]) { assert t[i] == s[i + 1]; }
      FilterKeepsAll(t, keep);
      FilterUnfold(s, keep);
    } else {
      forall i | 0 <= i < |t| && i != k - 1 ensures keep(t[i]) { assert t[i] == s[i + 1]; }
      FilterDropsOne(t, keep, k - 1);
      FilterUnfold(s, keep);
      ConsSplice(s[0], t, k);
      assert [s[0]] + t == s;
    }
  }

  /** Putting an element in front of a sequence with one position spliced
      out is splicing the next position out of the longer sequence. */
  lemma ConsSplice<T>(x: T, t: seq<T>, k: nat)
    requires 0 < k <= |t|
    ensures [x] + (t[..k - 1] + t[k..]) == ([x] + t)[..k] + ([x] + t)[k + 1..]
  {
    assert ([x] + t)[..k] == [x] + t[..k - 1];
    assert ([x] + t)[k + 1..] == t[k..];
  }

  /** One step of `Filter` on a non-empty sequence. */
  lemma FilterUnfold<T>(s: seq<T>, keep: T -> bool)
    requires |s| > 0
    ensures keep(s[0]) ==> Filter(s, keep) == [s[0]] + Filter(s[1..], keep)
    ensures !keep(s[0]) ==> Filter(s, keep) == Filter(s[1..], keep)
  {
  }

  /** Being an order-preserving subsequence is transitive. */
  lemma {:induction false} SubseqTrans<T>(a: seq<T>, b: seq<T>, c: seq<T>)
    requires Subseq(a, b) && Subseq(b, c)
    ensures Subseq(a, c)
    decreases |c|
  {
    if |a| > 0 && |c| > 0 {
      if b[0] == c[0] {
        if a[0] == b[0] {
          SubseqTrans(a[1..], b[1..], c[1..]);
        } else {
          SubseqTrans(a, b[1..], c[1..]);
          SubseqDropHead(a, c[1..]);
        }
      } else {
        SubseqTrans(a, b, c[1..]);
        SubseqDropHead(a, c[1..]);
      }
    }
  }

  /** Dropping the head of a subsequence keeps it a subsequence. */
  lemma {:induction false} SubseqDropHead<T>(a: seq<T>, b: seq<T>)
    requires |a| > 0 && Subseq(a, b)
    ensures Subseq(a[1..], b)
    decreases |b|, 1
  {
    if a[0] != b[0] {
      SubseqDropHead(a, b[1..]);
    }
    SubseqCons(a[1..], b);
  }

  /** A subsequence of the tail is a subsequence of the whole. */
  lemma {:induction false} SubseqCons<T>(a: seq<T>, b: seq<T>)
    requires |b| > 0 && Subseq(a, b[1..])
    ensures Subseq(a, b)
    decreases |b|, 0
  {
    if |a| > 0 && a[0] == b[0] {
      SubseqDropHead(a, b[1..]);
    }
  }

  /** Every element of a subsequence occurs in the whole. */
  lemma {:induction false} SubseqElements<T>(a: seq<T>, b: seq<T>)
    requires Subseq(a, b)
    ensures forall i :: 0 <= i < |a| ==> a[i] in b
    decreases |b|
  {
    if |a| > 0 {
      if a[0] == b[0] {
        SubseqElements(a[1..], b[1..]);
        assert forall i :: 1 <= i < |a| ==> a[i] == a[1..][i - 1];
      } else {
        SubseqElements(a, b[1..]);
      }
    }
  }

  /** A subsequence of a duplicate-free sequence is duplicate-free. */
  lemma {:induction false} SubseqNoDup<T>(a: seq<T>, b: seq<T>)
    requires Subseq(a, b) && NoDup(b)
    ensures NoDup(a)
    decreases |b|
  {
    if |a| > 0 {
      if a[0] == b[0] {
        SubseqNoDup(a[1..], b[1..]);
        SubseqElements(a[1..], b[1..]);
        assert forall i :: 1 <= i < |a| ==> a[i] == a[1..][i - 1];
      } else {
        SubseqNoDup(a, b[1..]);
      }
    }
  }

  /** An insertion-ordered `Set` read back as an array: the distinct
      elements of `s`, in the order of their first occurrence. */
  function Distinct<T(==)>(s: seq<T>): (r: seq<T>)
    ensures NoDup(r)
    ensures forall i :: 0 <= i < |r| ==> r[i] in s
    ensures forall i :: 0 <= i < |s| ==> s[i] in r
    ensures forall a, b :: 0 <= a < b < |r| ==> IndexOf(s, r[a]) < IndexOf(s, r[b])
    decreases |s|
  {
    if |s| == 0 then []
    else
      var p := s[..|s| - 1];
      var x := s[|s| - 1];
      var d := Distinct(p);
      assert s == p + [x];
      if x in d then
        DistinctKeep(p, x, d);
        d
      else
        DistinctExtend(p, x, d);
        d + [x]
  }

  /** Helper for `Distinct`: an element already seen adds nothing. */
  lemma DistinctKeep<T>(p: seq<T>, x: T, d: seq<T>)
    requires x in d
    requires forall i :: 0 <= i < |d| ==> d[i] in p
    requires forall i :: 0 <= i < |p| ==> p[i] in d
    requires forall a, b :: 0 <= a < b < |d| ==> IndexOf(p, d[a]) < IndexOf(p, d[b])
    ensures forall i :: 0 <= i < |d| ==> d[i] in p + [x]
    ensures forall i :: 0 <= i < |p + [x]| ==> (p + [x])[i] in d
    ensures forall a, b :: 0 <= a < b < |d| ==> IndexOf(p + [x], d[a]) < IndexOf(p + [x], d[b])
  {
    var s := p + [x];
    assert s[..|p|] == p;
    DistinctOrderKept(s, |p|, d);
  }

  /** Helper for `Distinct`: a new element goes last. */
  lemma DistinctExtend<T>(p: seq<T>, x: T, d: seq<T>)
    requires NoDup(d) && x !in d
    requires forall i :: 0 <= i < |d| ==> d[i] in p
    requires forall i :: 0 <= i < |p| ==> p[i] in d
    requires forall a, b :: 0 <= a < b < |d| ==> IndexOf(p, d[a]) < IndexOf(p, d[b])
    ensures NoDup(d + [x])
    ensures forall i :: 0 <= i < |d + [x]| ==> (d + [x])[i] in p + [x]
    ensures forall i :: 0 <= i < |p + [x]| ==> (p + [x])[i] in d + [x]
    ensures forall a, b :: 0 <= a < b < |d + [x]| ==> IndexOf(p + [x], (d + [x])[a]) < IndexOf(p + [x], (d + [x])[b])
  {
    var s := p + [x];
    var r := d + [x];
    var n := |p|;
    assert s[..n] == p;
    assert s[n] == x;
    DistinctOrderKept(s, n, d);
    DistinctAppend(s, d);
    forall a, b | 0 <= a < b < |r| ensures IndexOf(s, r[a]) < IndexOf(s, r[b]) {
      assert r[a] == d[a];
      if b < |d| {
        assert r[b] == d[b];
      }
    }
  }

  /** Helper for `Distinct`: a last element not seen before is first found
      after everything that was. */
  lemma DistinctAppend<T>(s: seq<T>, d: seq<T>)
    requires |s| > 0 && s[|s| - 1] !in d
    requires forall i :: 0 <= i < |d| ==> d[i] in s[..|s| - 1]
    requires forall i :: 0 <= i < |s| - 1 ==> s[i] in d
    ensures forall a :: 0 <= a < |d| ==> IndexOf(s, d[a]) < IndexOf(s, s[|s| - 1])
  {
    var n := |s| - 1;
    assert s[n] !in s[..n];
    assert IndexOf(s, s[n]) == n;
    forall a | 0 <= a < |d| ensures IndexOf(s, d[a]) < n {
      IndexOfBefore(s, d[a], n);
    }
  }

  /** Helper for `Distinct`: the order of the prefix's distinct elements
      carries over to the whole sequence. */
  lemma DistinctOrderKept<T>(s: seq<T>, n: nat, d: seq<T>)
    requires n <= |s|
    requires forall i :: 0 <= i < |d| ==> d[i] in s[..n]
    requires forall a, b :: 0 <= a < b < |d| ==> IndexOf(s[..n], d[a]) < IndexOf(s[..n], d[b])
    ensures forall a, b :: 0 <= a < b < |d| ==> IndexOf(s, d[a]) < IndexOf(s, d[b])
  {
    forall a, b | 0 <= a < b < |d|
      ensures IndexOf(s, d[a]) < IndexOf(s, d[b])
    {
      IndexOfPrefix(s, n, d[a]);
      IndexOfPrefix(s, n, d[b]);
    }
  }

  /** `Distinct` leaves a duplicate-free sequence as it is. */
  lemma {:induction false} DistinctOfNoDup<T>(s: seq<T>)
    requires NoDup(s)
    ensures Distinct(s) == s
    decreases |s|
  {
    if |s| > 0 {
      var n := |s| - 1;
      var p := s[..n];
      assert NoDup(p) by {
        forall i, j | 0 <= i < j < |p| ensures p[i] != p[j] {
          assert p[i] == s[i] && p[j] == s[j];
        }
      }
      DistinctOfNoDup(p);
      assert s[n] !in p by {
        forall i | 0 <= i < |p| ensures p[i] != s[n] {
          assert p[i] == s[i];
        }
      }
      assert Distinct(s) == Distinct(p) + [s[n]];
      assert s == p + [s[n]];
    }
  }

  /** Where `Array.prototype.find` stops: the first position satisfying
      `test`, or -1 when `find` gives `undefined`. */
  function FindIndex<T>(s: seq<T>, test: T -> bool): (i: int)
    ensures -1 <= i < |s|
    ensures i == -1 <==> forall j :: 0 <= j < |s| ==> !test(s[j])
    ensures 0 <= i ==> test(s[i]) && forall j :: 0 <= j < i ==> !test(s[j])
    decreases |s|
  {
    if |s| == 0 then -1
    else if test(s[0]) then 0
    else
      var j := FindIndex(s[1..], test);
      if j == -1 then -1 else j + 1
  }
}

=== FILE: text.dfy ===
/** The string primitives the source calls: `toLowerCase`, `trim`,
    `includes` and `String(n)` for an integer `n`. */
module Text {
  import opened Wrappers

  /** ASCII lower-casing of one character; every other character is kept. */
  function LowerChar(c: char): char
  {
    if 'A' <= c <= 'Z' then (c as int + 32) as char else c
  }

  /** `String.prototype.toLowerCase`, restricted to ASCII letters. */
  function Lower(s: string): (r: string)
    ensures |r| == |s|
    ensures forall i :: 0 <= i < |r| ==> !('A' <= r[i] <= 'Z')
    ensures forall i :: 0 <= i < |r| ==> r[i] == s[i] || ('A' <= s[i] <= 'Z' && r[i] as int == s[i] as int + 32)
  {
    seq(|s|, i requires 0 <= i < |s| => LowerChar(s[i]))
  }

  /** White space and line terminators as `String.prototype.trim` removes
      them: the WhiteSpace and LineTerminator code points of the
      ECMAScript language specification. */
  predicate IsSpace(c: char)
  {
    var n := c as int;
    n == 0x09 || n == 0x0A || n == 0x0B || n == 0x0C || n == 0x0D || n == 0x20
    || n == 0xA0 || n == 0x1680 || (0x2000 <= n <= 0x200A) || n == 0x2028
    || n == 0x2029 || n == 0x202F || n == 0x205F || n == 0x3000 || n == 0xFEFF
  }

  /** `s` without its leading white space. */
  function TrimStart(s: string): (r: string)
    ensures |r| <= |s| && r == s[|s| - |r|..]
    ensures forall i :: 0 <= i < |s| - |r| ==> IsSpace(s[i])
    ensures |r| == 0 || !IsSpace(r[0])
  {
    if |s| > 0 && IsSpace(s[0]) then TrimStart(s[1..]) else s
  }

  /** `s` without its trailing white space. */
  function TrimEnd(s: string): (r: string)
    ensures |r| <= |s| && r == s[..|r|]
    ensures forall i :: |r| <= i < |s| ==> IsSpace(s[i])
    ensures |r| == 0 || !IsSpace(r[|r| - 1])
  {
    if |s| > 0 && IsSpace(s[|s| - 1]) then TrimEnd(s[..|s| - 1]) else s
  }

  /** `String.prototype.trim`: `s` without leading and trailing white
      space, everything removed being white space. */
  function Trim(s: string): (r: string)
    ensures TrimmedFrom(s, r)
    ensures |r| == 0 || (!IsSpace(r[0]) && !IsSpace(r[|r| - 1]))
  {
    TrimBounds(s);
    TrimEnd(TrimStart(s))
  }

  /** `r` is the block of `s` starting at some `a`, with only white space
      before and after it. */
  ghost predicate TrimmedFrom(s: string, r: string)
  {
    exists a :: 0 <= a <= |s| && StartsWith(s[a..], r)
                && (forall i :: 0 <= i < a ==> IsSpace(s[i]))
                && (forall i :: a + |r| <= i < |s| ==> IsSpace(s[i]))
  }

  /** Helper for `Trim`: where its result sits inside `s`. */
  lemma TrimBounds(s: string)
    ensures TrimmedFrom(s, TrimEnd(TrimStart(s)))
    ensures var r := TrimEnd(TrimStart(s)); |r| == 0 || (!IsSpace(r[0]) && !IsSpace(r[|r| - 1]))
  {
    var t := TrimStart(s);
    var r := TrimEnd(t);
    var a := |s| - |t|;
    assert s[a..] == t;
    assert StartsWith(s[a..], r);
    forall i | a + |r| <= i < |s| ensures IsSpace(s[i]) {
      assert s[i] == t[i - a];
    }
    assert 0 <= a <= |s| && (forall i :: 0 <= i < a ==> IsSpace(s[i]));
    if |r| > 0 {
      assert r[0] == t[0];
    }
  }

  /** Leading white space does not survive lower-casing and trimming. */
  lemma LowerTrimIgnoresLeadingSpace(c: char, s: string)
    requires IsSpace(c)
    ensures Trim(Lower([c] + s)) == Trim(Lower(s))
    ensures Trim([c] + s) == Trim(s)
  {
    assert Lower([c] + s) == [c] + Lower(s);
    assert ([c] + Lower(s))[1..] == Lower(s);
    assert ([c] + s)[1..] == s;
  }

  /** A blank field: white space only. */
  predicate IsBlank(s: string)
  {
    forall i :: 0 <= i < |s| ==> IsSpace(s[i])
  }

  /** `!s.trim()`: trimming leaves nothing exactly when `s` is blank. */
  lemma BlankIffAllSpace(s: string)
    ensures IsBlank(s) <==> Trim(s) == ""
  {
  }

  /** `s` begins with `t`. */
  predicate StartsWith(s: string, t: string)
  {
    |t| <= |s| && s[..|t|] == t
  }

  /** `String.prototype.includes`: `t` occurs in `s` as a contiguous block. */
  predicate Contains(s: string, t: string)
    decreases |s|
  {
    StartsWith(s, t) || (|s| > 0 && Contains(s[1..], t))
  }

  /** `Contains` agrees with the positional definition of a substring. */
  lemma {:induction false} ContainsIffOccurs(s: string, t: string)
    ensures Contains(s, t) <==> exists i :: 0 <= i <= |s| && StartsWith(s[i..], t)
    decreases |s|
  {
    assert s[0..] == s;
    if |s| > 0 {
      ContainsIffOccurs(s[1..], t);
      if exists i :: 0 <= i <= |s| && StartsWith(s[i..], t) {
        var i :| 0 <= i <= |s| && StartsWith(s[i..], t);
        if i > 0 {
          assert s[1..][i - 1..] == s[i..];
        }
      }
      if Contains(s[1..], t) {
        var i :| 0 <= i <= |s[1..]| && StartsWith(s[1..][i..], t);
        assert s[1..][i..] == s[i + 1..];
      }
    } else {
      if exists i :: 0 <= i <= |s| && StartsWith(s[i..], t) {
        var i :| 0 <= i <= |s| && StartsWith(s[i..], t);
        assert s[i..] == s;
      }
    }
  }

  /** Every string includes the empty string. */
  lemma ContainsEmpty(s: string)
    ensures Contains(s, "")
  {
  }

  /** The decimal digit for `d`. */
  function DigitChar(d: nat): (c: char)
    requires d < 10
    ensures '0' <= c <= '9' && c as int - '0' as int == d
  {
    ('0' as int + d) as char
  }

  predicate IsDigit(c: char)
  {
    '0' <= c <= '9'
  }

  /** Decimal digits of `n`, most significant first, without leading zeros. */
  function NatToString(n: nat): (r: string)
    ensures |r| >= 1
    ensures forall i :: 0 <= i < |r| ==> IsDigit(r[i])
    ensures r[0] == '0' ==> n == 0 && |r| == 1
    decreases n
  {
    if n < 10 then [DigitChar(n)] else NatToString(n / 10) + [DigitChar(n % 10)]
  }

  /** `String(n)` for an integer `n`. */
  function IntToString(n: int): (r: string)
    ensures |r| >= 1
    ensures n < 0 <==> r[0] == '-'
  {
    if n < 0 then "-" + NatToString(-n) else NatToString(n)
  }

  /** The value of a string of decimal digits. */
  function DigitsValue(s: string): nat
    requires forall i :: 0 <= i < |s| ==> IsDigit(s[i])
  {
    if |s| == 0 then 0
    else
      assert IsDigit(s[|s| - 1]);
      DigitsValue(s[..|s| - 1]) * 10 + (s[|s| - 1] as int - '0' as int)
  }

  /** Reads back a decimal integer with an optional leading minus sign. */
  function ParseInt(s: string): (r: Option<int>)
    ensures r.Some? ==> |s| > 0
  {
    if |s| > 0 && s[0] == '-' then
      if |s| > 1 && forall i :: 1 <= i < |s| ==> IsDigit(s[i]) then Some(0 - DigitsValue(s[1..])) else None
    else if |s| > 0 && forall i :: 0 <= i < |s| ==> IsDigit(s[i]) then Some(DigitsValue(s))
    else None
  }

  /** The digits of `n` read back as `n`. */
  lemma {:induction false} NatToStringValue(n: nat)
    ensures DigitsValue(NatToString(n)) == n
    decreases n
  {
    if n >= 10 {
      NatToStringValue(n / 10);
      var r := NatToString(n);
      assert r[..|r| - 1] == NatToString(n / 10);
    }
  }

  /** `String(n)` reads back as `n`, so distinct integers give distinct strings. */
  lemma IntToStringRoundTrip(n: int)
    ensures ParseInt(IntToString(n)) == Some(n)
  {
    var s := IntToString(n);
    if n < 0 {
      var t := NatToString(-n);
      NatToStringValue(-n);
      assert s == "-" + t && s[1..] == t;
      assert forall i :: 1 <= i < |s| ==> s[i] == t[i - 1];
      assert ParseInt(s) == Some(0 - DigitsValue(t));
    } else {
      NatToStringValue(n);
      assert IsDigit(s[0]);
      assert ParseInt(s) == Some(DigitsValue(s));
    }
  }
}

=== FILE: wrappers.dfy ===
/** Optional values and success/failure results, used wherever the source
    has an `undefined` field or an error path. */
module Wrappers {

  /** A value that may be absent (`undefined` in the source). */
  datatype Option<+T> = None | Some(value: T) {

    /** The held value, or `default` when there is none. */
    function GetOr(default: T): T
    {
      match this
      case Some(v) => v
      case None => default
    }
  }

  /** The outcome of an operation that can fail with an error value. */
  datatype Result<+R, +E> = Success(value: R) | Failure(error: E)
}
